=== FILE: README.md ===
# crun: the command line as a job chain

crun runs shell commands as a chain. Each `-s cmd` on its command line adds a
sequential job. A run of `-c cmd` options forms one parallel group, whose
commands may run at the same time under a limit set by `-n` (4 by default).
`-stdin` reads standard input and treats each non-empty line as one more
`-c line`. When the command line has been read, `main` walks the chain in
order. It awaits a sequential job's single command, and it hands a group's
commands to a limiter that runs at most `max_coro` of them at once.

This project models the two parts of `crun.py` that decide what runs and in
which order:

- `init` is the index-driven loop over the argument list. It splices the
  `-stdin` lines into the list, collects the `Job` objects and extends the
  last one in place. It exits with code 0 or 1 on the documented error paths.
- The walk of `main` over the jobs. Running a command or a group is recorded
  as a step of a trace (`RunOne(cmd)`, `RunGroup(cmds, limit)`) instead of
  being performed.

The modules are:

- `Jobs` (jobs.dfy) holds the value of a job (`JobValue`) and of one
  declaration (`Decl`). It defines the rule `Add`, by which one `-s`/`-c`
  declaration changes the chain, and the fold `Build`. It also defines the
  chain's shape (`WellFormed`) and the inverse `Decls`, which reads the
  declarations back from a chain.
- `Arguments` (arguments.dfy) holds `str.split("\n")`, `filter(None, ...)` and
  `int()` as far as `-n` needs it. It defines `Scan`, the reference semantics
  of the `init` loop, and `Parse`, which is `init` as a whole.
- `Schedule` (schedule.dfy) holds the dispatch plan of `main` (`Plan`) and the
  behaviour of a whole run (`Behaviour`).
- `Crun` (crun.dfy) holds the imperative code:
  - the mutable `Job` class;
  - `Init`, the `while` loop that grows and splices the argument list, appends
    jobs and extends the last job in place;
  - `Dispatch`, the `for` loop of `main`;
  - `RunMain`, both of them together.

  Each method is proved against the functions above.

`init` exits with `sys.exit` in some cases, and an uncaught `ValueError` from
`int()` stops the program. These are the `Exit(code)` and `BadLimit(text)`
outcomes. Standard input is a parameter. `-stdin` reads all of it, so a second
`-stdin` reads the exhausted stream, the empty text.

Where the usage text and the code disagree, the model follows the code. The
usage text gives the number of CPUs as the default for `-n`, but the code uses
4 (crun.py:147). The usage text lists only `-h`, but the code also accepts
`-help` and `--help`.

## Model

| member | source | states |
|---|---|---|
| Jobs.Add | crun.py:186-201 | what one `-s`/`-c` does to the job list; no contract of its own: `AddWellFormed`, `AddFlatten`, `SequentialAppends`, `ConcurrentJoins` and `ConcurrentOpensGroup` state its properties |
| Jobs.AddWellFormed | crun.py:186-201 | one `-s`/`-c` declaration keeps the chain free of empty jobs, keeps every sequential job at one command, and never leaves two parallel groups side by side |
| Jobs.AddFlatten | crun.py:186-201 | one declaration puts its command after all commands already in the chain |
| Jobs.Build | crun.py:150-201 | the job list `init` builds from its declarations in order; no contract of its own: `BuildWellFormed`, `BuildCommands`, `DeclsOfBuild` and `BuildOfDecls` state its properties |
| Jobs.BuildWellFormed | crun.py:150-201 | every chain the declarations build is well formed: non-empty jobs, sequential jobs with exactly one command, no adjacent parallel groups |
| Jobs.BuildCommands | crun.py:150-201 | the chain's commands, job after job, are the declared commands in argument order |
| Jobs.SequentialAppends | crun.py:187-188 | `-s v` appends exactly one new job `Sequential [v]`, whatever the chain ended with |
| Jobs.ConcurrentJoins | crun.py:190-196 | `-c v` after a parallel group adds `v` to that group; the number of jobs and every earlier job are unchanged |
| Jobs.ConcurrentOpensGroup | crun.py:197-201 | `-c v` on an empty list or after a sequential job appends a new group `Parallelized [v]` |
| Jobs.GroupFromDecls | crun.py:190-201 | a run of `-c` declarations after a sequential job (or at the start) builds exactly one group holding those commands in order |
| Jobs.DeclsOfBuild | crun.py:186-201 | building loses nothing: the declarations are read back from the chain they build |
| Jobs.BuildOfDecls | crun.py:186-201 | every well-formed chain is the chain of its own declarations, so the well-formed chains are exactly the chains `init` can build |
| Arguments.Split | crun.py:161 | `split("\n")` yields at least one piece, and no piece contains a newline |
| Arguments.JoinSplit | crun.py:161 | splitting on newlines keeps every character: joining the pieces with newlines gives the text back |
| Arguments.SplitJoin | crun.py:161 | pieces without newlines, joined and split again, come back unchanged |
| Arguments.NonEmpty | crun.py:161 | `filter(None, ...)` keeps only non-empty pieces, each taken from the input; `NonEmptyAppend` and `NonEmptyPiece` state that it keeps every non-empty piece, in order |
| Arguments.NonEmptyAppend | crun.py:161 | filtering two lists in a row gives the filtered first list followed by the filtered second |
| Arguments.NonEmptyPiece | crun.py:161 | a single piece is kept exactly when it is non-empty |
| Arguments.Lines | crun.py:160-161 | the lines `-stdin` uses are non-empty and newline-free, and an exhausted stream gives none; `LinesOfJoin` states which lines it keeps |
| Arguments.LinesOfJoin | crun.py:160-161 | for text made of newline-free pieces, the lines `-stdin` uses are every non-empty piece, in order |
| Arguments.LinesKeepText | crun.py:161 | dropping empty lines loses no command text: only the newlines go |
| Arguments.DecimalValue | crun.py:184 | `int(value)` for an optional sign and ASCII digits of any length, `None` for every other text; no contract of its own: `DecimalRoundTrip` states it reads back every printed integer |
| Arguments.DecimalRoundTrip | crun.py:184 | every integer written in decimal is read back by `DecimalValue` as itself |
| Arguments.Scan | crun.py:150-202 | the `while` loop of `init` from a given point of the argument list; no contract of its own: `ExitConditions`, `ExitCodes`, `ScanExtendsDecls`, `LimitUnchanged`, `ScanLimit`, `LastLimitWins`, `UnknownFlagSkipped`, `ScanDecl`, `ScanRender` and `StdinAsConcurrent` state its properties |
| Arguments.Parse | crun.py:129-203 | when `init` returns, its chain is well formed |
| Arguments.ConcurrentArgs | crun.py:162-166 | the `-c line` pairs, defined as the lines written out as the `-c` declarations of one group: two arguments per line; `ScanConcurrentArgs` states that they read back as one `-c` per line, in order |
| Arguments.ScanConcurrentArgs | crun.py:162-170 | the spliced `-c line` pairs are read as one `-c` declaration per line, in line order |
| Arguments.StdinAsConcurrent | crun.py:159-170 | `-stdin` followed by any arguments acts as `-c line` for each non-empty line of standard input, and afterwards standard input is exhausted |
| Arguments.ExitConditions | crun.py:139-178 | no arguments exits 0; a help flag exits 0; a token without a leading dash in flag position exits 1; a flag with no value exits 1 |
| Arguments.ExitCodes | crun.py:129-203 | `init` exits only with code 0 or 1 |
| Arguments.ScanExtendsDecls | crun.py:150-201 | declarations are only added at the end, never changed or dropped |
| Arguments.LimitUnchanged | crun.py:150-202 | only `-n` changes the limit: with no `-n` left in flag position (a `-n` that is the value of another option does not count), the limit stays as it is |
| Arguments.ScanLimit | crun.py:183-184 | `-n value` with an integer value sets the limit and changes nothing else |
| Arguments.LastLimitWins | crun.py:183-184 | the limit `init` returns is the value of the last `-n` read as a flag |
| Arguments.LimitAsValue | crun.py:183-188 | `crun -n 3 -s -n` gives one sequential job running `-n`, under limit 3 |
| Arguments.UnknownFlagSkipped | crun.py:180-202 | an unknown dash flag consumes its value and changes neither the jobs nor the limit |
| Arguments.ScanDecl | crun.py:186-201 | `-s cmd` / `-c cmd` is read as exactly that declaration |
| Arguments.ScanRender | crun.py:150-201 | declarations written out as `-s`/`-c` pairs are read back in order |
| Arguments.RenderRoundTrip | crun.py:129-203 | for any declarations and limit, `init` on `-n limit` followed by the declarations returns the chain they build and that limit, whatever is on standard input |
| Arguments.DefaultLimit | crun.py:147 | without `-n` the limit is 4 |
| Arguments.StdinGroup | crun.py:159-170 | `crun -n k -stdin` gives one parallel group of the non-empty input lines, under limit `k` |
| Arguments.StdinBetweenScan | crun.py:150-201 | `-n k -s first -stdin -s last` reads as `first`, one `-c` per line, then `last`, with limit `k` |
| Arguments.StdinBetweenSequential | crun.py:159-170 | `crun -n k -s first -stdin -s last` gives `first`, one group of the input lines, then `last` |
| Arguments.UsageChain | crun.py:36-46 | the usage-text declarations build `[Seq[job1], Par[job2, job3, job4], Seq[job5], Seq[job6]]` |
| Arguments.UsageExample | crun.py:36-46 | `crun -n 4 -s job1 -c job2 -c job3 -c job4 -s job5 -s job6` yields that chain with limit 4 |
| Schedule.Plan | crun.py:211-217 | `main` takes exactly one step per job |
| Schedule.StepFor | crun.py:213-217 | the step `main` takes for one job; no contract of its own: `PlanInOrder` states it |
| Schedule.WellFormedRunnable | crun.py:213-214 | in a well-formed chain every sequential job has the `cmds[0]` that `main` runs |
| Schedule.PlanInOrder | crun.py:211-217 | the k-th step belongs to the k-th job: `RunOne(cmds[0])` for a sequential job, `RunGroup(cmds, max_coro)` for a group |
| Schedule.PlanAppend | crun.py:211-217 | the plan of two chains in a row is the first plan followed by the second |
| Schedule.PlanLimit | crun.py:215-217 | every group step carries the limit the plan was made with |
| Schedule.PlanStartsEveryCommand | crun.py:211-217 | for a well-formed chain the steps start every command exactly once, in chain order |
| Schedule.Behaviour | crun.py:207-217 | `init` then `main`: the dispatched trace, an exit code, or a bad `-n` value; no contract of its own: `DeclaredCommandsStarted`, `StdinDispatch` and `RunMain` state it |
| Schedule.DeclaredCommandsStarted | crun.py:207-217 | for a limit of at least 1, `main` dispatches the plan of the chain the declarations build, provided every step returns; the plan starts exactly the declared commands, in argument order, and every group step carries the `-n` limit |
| Schedule.StdinDispatch | crun.py:207-217 | `crun -n k -stdin` dispatches one group of all non-empty input lines under limit `k` |
| Crun.Job.constructor | crun.py:68-72 | the `Job` dataclass: a new job holds the given kind and commands, fields the loop of `init` later updates in place |
| Crun.ToConcurrentArgs | crun.py:162-166 | the loop that builds `-c line` pairs produces the pairs of the lines, in order |
| Crun.SpliceStdin | crun.py:159-170 | the argument list is rebuilt with the pairs right after `-stdin`, the earlier arguments unchanged, and scanning on goes as `-stdin` means |
| Crun.AppendJob | crun.py:187-188 | `jobs.append(Job(kind, [cmd]))` adds one new, distinct job object at the end |
| Crun.ExtendLast | crun.py:190-196 | `prev_job.cmds.append(value)` changes only the last job object: the earlier jobs keep their values |
| Crun.AddJob | crun.py:186-201 | the jobs after `-s`/`-c` hold the values `Add` gives, they stay distinct objects, and only the last one may have been changed |
| Crun.ApplyOption | crun.py:180-201 | one option with its value moves the scan on exactly as `Scan` does, or stops it at an `int()` failure |
| Crun.Init | crun.py:129-203 | the loop returns the jobs and limit `Parse` describes, as distinct objects, or exits where `Parse` exits |
| Crun.Dispatch | crun.py:211-217 | the walk over the jobs records exactly the plan of their values |
| Crun.RunMain | crun.py:207-217 | `main` after `init` behaves as `Behaviour` says |

## Left out

- `run` and `_read_stream` (crun.py:90-126) start subprocesses, drain their output streams, print and time them. This is I/O; a step of the trace stands for a whole `run`. The trace lists the steps `main` hands out on the assumption that every step returns. It does not show that a command that never exits holds `main` at its step, or that a failure of `create_subprocess_shell` (crun.py:113) raises out of `main`. It also does not show that on Python 3.11 and later `asyncio.wait` raises `TypeError` for the bare `_read_stream` coroutines crun.py:119-122 passes, so each `run` fails right after starting its process and crun stops after the first job it dispatches: its one command for a sequential job, or the up to `max_coro` commands of a group that the semaphore admits.
- `gather_with_concurrency` (crun.py:75-87) is asyncio semaphore concurrency. It is the `RunGroup(cmds, limit)` step. The model says nothing about how the group interleaves, or what a limit of 0 or less does (a semaphore of 0 waits forever, a negative one raises). For such a limit the trace of `Behaviour` still lists the steps after the first group, which crun never reaches; `DeclaredCommandsStarted` therefore asks for a limit of at least 1.
- `asyncio.run` (crun.py:220-221) and the awaiting of steps are not modelled; the trace order is the await order.
- The usage text and the status messages (crun.py:22-58, 111, 185) are output only. Help and errors are modelled by their exit codes.
- Reading standard input (crun.py:160) becomes a parameter holding the whole text. The model does not distinguish a terminal that is still open from end of file.
- DecimalValue: accepts only an optional sign followed by ASCII digits. Python's `int()` also accepts surrounding whitespace, underscores between digits and non-ASCII digits, so values such as ` 8` or `1_0` give `BadLimit` here but a limit in crun. In the other direction, `int()` raises ValueError for a value of more than 4300 digits (the default of `sys.get_int_max_str_digits()` since Python 3.11 and the 3.10.7, 3.9.14 and 3.8.14 security releases), where DecimalValue returns the value; the limit depends on the interpreter and its settings, so the model reads every length.
- A `Job` with no commands, and a `main` over hand-made jobs, are outside the model. Jobs exist only as `init` builds them.

=== FILE: arguments.dfy ===
/**
 * What crun's `init` makes of its command line: the flags `-h`/`-help`/
 * `--help`, `-stdin`, `-n`, `-s` and `-c`, scanned left to right, with the
 * lines of standard input spliced in as `-c` declarations.
 */
module Arguments {
  import opened Jobs

  datatype Option<T> = None | Some(value: T)

  /**
   * How `init` ends: with the declared items and the concurrency limit,
   * with `sys.exit(code)`, or with the ValueError that `int()` raises for a
   * `-n` value that is not an integer (uncaught, so the run stops there).
   */
  datatype Outcome<T> = Ready(items: seq<T>, maxCoro: int) | Exit(code: int) | BadLimit(text: string)

  const DefaultMaxCoro := 4
  const HelpFlags: seq<string> := ["-h", "-help", "--help"]

  /** `token.startswith("-")` */
  predicate IsFlag(token: string) {
    |token| > 0 && token[0] == '-'
  }

  // ----- standard input -----

  /** `text.split("\n")`: the pieces between newlines, empty ones included. */
  function Split(text: string): (parts: seq<string>)
    ensures |parts| >= 1
    ensures forall k :: 0 <= k < |parts| ==> '\n' !in parts[k]
  {
    if text == [] then [""]
    else
      var rest := Split(text[1..]);
      if text[0] == '\n' then [""] + rest
      else
        var parts := [[text[0]] + rest[0]] + rest[1..];
        assert forall k :: 1 <= k < |parts| ==> parts[k] == rest[k];
        parts
  }

  /** `"\n".join(parts)` */
  function Join(parts: seq<string>): string
    requires |parts| >= 1
  {
    if |parts| == 1 then parts[0] else parts[0] + "\n" + Join(parts[1..])
  }

  /** Splitting keeps every character: joining the pieces gives the text back. */
  lemma {:induction false} JoinSplit(text: string)
    ensures Join(Split(text)) == text
  {
    if text != [] {
      var rest := Split(text[1..]);
      JoinSplit(text[1..]);
      if text[0] == '\n' {
        assert Split(text) == [""] + rest;
      } else {
        var parts := [[text[0]] + rest[0]] + rest[1..];
        assert Split(text) == parts;
        if |rest| > 1 {
          assert parts[1..] == rest[1..];
          assert Join(rest) == rest[0] + "\n" + Join(rest[1..]);
        }
      }
    }
  }

  /** A character other than a newline joins the first piece. */
  lemma {:induction false} SplitCons(c: char, rest: string)
    requires c != '\n'
    ensures Split([c] + rest) == [[c] + Split(rest)[0]] + Split(rest)[1..]
  {
    assert ([c] + rest)[0] == c && ([c] + rest)[1..] == rest;
  }

  lemma {:induction false} SplitPrefix(piece: string, text: string)
    requires '\n' !in piece
    ensures Split(piece + text) == [piece + Split(text)[0]] + Split(text)[1..]
  {
    var tail := Split(text);
    if piece != [] {
      var c, more := piece[0], piece[1..];
      assert c != '\n' by { assert c in piece; }
      assert '\n' !in more by { forall x | x in more ensures x in piece { } }
      SplitPrefix(more, text);
      assert piece == [c] + more;
      AppendAssoc([c], more, text);
      SplitCons(c, more + text);
      AppendAssoc([c], more, tail[0]);
    } else {
      assert piece + text == text;
      assert piece + tail[0] == tail[0];
      assert [tail[0]] + tail[1..] == tail;
    }
  }

  /** Pieces without newlines come back unchanged from joining and splitting. */
  lemma {:induction false} SplitJoin(parts: seq<string>)
    requires |parts| >= 1
    requires forall k :: 0 <= k < |parts| ==> '\n' !in parts[k]
    ensures Split(Join(parts)) == parts
  {
    if |parts| == 1 {
      SplitPrefix(parts[0], "");
      assert parts[0] + "" == parts[0];
    } else {
      var tail := Join(parts[1..]);
      SplitJoin(parts[1..]);
      SplitPrefix(parts[0], "\n" + tail);
      assert ("\n" + tail)[1..] == tail;
      assert Split("\n" + tail) == [""] + Split(tail);
      assert parts[0] + "\n" + tail == parts[0] + ("\n" + tail);
      assert parts[0] + "" == parts[0];
    }
  }

  /** `filter(None, parts)`: the non-empty pieces, in order. */
  function NonEmpty(parts: seq<string>): (r: seq<string>)
    ensures forall k :: 0 <= k < |r| ==> r[k] != "" && r[k] in parts
  {
    if parts == [] then []
    else
      var rest := NonEmpty(parts[1..]);
      if parts[0] == "" then rest else [parts[0]] + rest
  }

  /** The commands `-stdin` takes from standard input: its non-empty lines. */
  function Lines(stdin: string): (lines: seq<string>)
    ensures forall k :: 0 <= k < |lines| ==> lines[k] != "" && '\n' !in lines[k]
    ensures stdin == "" ==> lines == []
  {
    if stdin == "" then
      assert Split(stdin) == [""];
      assert NonEmpty([""]) == NonEmpty([]);
      []
    else NonEmpty(Split(stdin))
  }

  /** `filter(None, ...)` goes piece by piece: two lists in a row are filtered one after the other. */
  lemma {:induction false} NonEmptyAppend(a: seq<string>, b: seq<string>)
    ensures NonEmpty(a + b) == NonEmpty(a) + NonEmpty(b)
  {
    if a == [] {
      assert a + b == b;
    } else {
      NonEmptyAppend(a[1..], b);
      assert (a + b)[0] == a[0];
      assert (a + b)[1..] == a[1..] + b;
      if a[0] != "" {
        AppendAssoc([a[0]], NonEmpty(a[1..]), NonEmpty(b));
      }
    }
  }

  /** A single piece is kept exactly when it is non-empty. */
  lemma {:induction false} NonEmptyPiece(p: string)
    ensures NonEmpty([p]) == (if p == "" then [] else [p])
  {
    assert [p][1..] == [];
  }

  /**
   * The lines `-stdin` takes from text made of newline-free pieces are the
   * non-empty pieces, every one of them, in order.
   */
  lemma {:induction false} LinesOfJoin(parts: seq<string>)
    requires |parts| >= 1
    requires forall k :: 0 <= k < |parts| ==> '\n' !in parts[k]
    ensures Lines(Join(parts)) == NonEmpty(parts)
  {
    SplitJoin(parts);
    if Join(parts) == "" {
      assert Split("") == [""];
      assert [""][1..] == [];
    }
  }

  function Concat(parts: seq<string>): string {
    if parts == [] then "" else parts[0] + Concat(parts[1..])
  }

  /** The text without its newlines. */
  function Unbroken(text: string): string {
    if text == [] then ""
    else if text[0] == '\n' then Unbroken(text[1..])
    else [text[0]] + Unbroken(text[1..])
  }

  lemma {:induction false} ConcatNonEmpty(parts: seq<string>)
    ensures Concat(NonEmpty(parts)) == Concat(parts)
  {
    if parts != [] {
      ConcatNonEmpty(parts[1..]);
      if parts[0] != "" {
        assert NonEmpty(parts) == [parts[0]] + NonEmpty(parts[1..]);
        assert ([parts[0]] + NonEmpty(parts[1..]))[1..] == NonEmpty(parts[1..]);
      }
    }
  }

  lemma {:induction false} ConcatSplit(text: string)
    ensures Concat(Split(text)) == Unbroken(text)
  {
    if text != [] {
      var rest := Split(text[1..]);
      ConcatSplit(text[1..]);
      if text[0] == '\n' {
        assert ([""] + rest)[1..] == rest;
      } else {
        var parts := [[text[0]] + rest[0]] + rest[1..];
        assert parts[1..] == rest[1..];
        assert Concat(rest) == rest[0] + Concat(rest[1..]);
      }
    }
  }

  /** Dropping the empty lines loses no command text: only the newlines go. */
  lemma {:induction false} LinesKeepText(stdin: string)
    ensures Concat(Lines(stdin)) == Unbroken(stdin)
  {
    ConcatNonEmpty(Split(stdin));
    ConcatSplit(stdin);
  }

  /** The `-c` declarations the lines stand for: those of one group holding them. */
  function ConcurrentDecls(lines: seq<string>): seq<Decl> {
    JobDecls(JobValue(Parallelized, lines))
  }

  /** The `-c line` pairs that `-stdin` splices into the argument list. */
  function ConcurrentArgs(lines: seq<string>): (args: seq<string>)
    ensures |args| == 2 * |lines|
  {
    Render(ConcurrentDecls(lines))
  }

  /** One more line adds one more `-c line` pair at the end. */
  lemma {:induction false} ConcurrentArgsSnoc(lines: seq<string>, line: string)
    ensures ConcurrentArgs(lines + [line]) == ConcurrentArgs(lines) + ["-c", line]
  {
    JobDeclsAppend(Parallelized, lines, line);
    RenderSnoc(ConcurrentDecls(lines), Decl(Parallelized, line));
  }

  // ----- `int(value)` for `-n` -----

  predicate AllDigits(s: string) {
    forall k :: 0 <= k < |s| ==> '0' <= s[k] <= '9'
  }

  function DigitsValue(s: string): nat
    requires AllDigits(s)
  {
    if s == [] then 0 else DigitsValue(Front(s)) * 10 + (Last(s) as int - '0' as int)
  }

  /** `int(text)` for an optional sign followed by decimal digits of any length; None for every other text. */
  function DecimalValue(text: string): Option<int> {
    if |text| > 0 && (text[0] == '-' || text[0] == '+') then
      var digits := text[1..];
      if digits != [] && AllDigits(digits) then
        var magnitude: int := DigitsValue(digits);
        Some(if text[0] == '-' then -magnitude else magnitude)
      else None
    else if text != [] && AllDigits(text) then Some(DigitsValue(text))
    else None
  }

  function NatDigits(n: nat): (s: string)
    ensures s != [] && AllDigits(s)
  {
    if n < 10 then [('0' as int + n) as char]
    else NatDigits(n / 10) + [('0' as int + n % 10) as char]
  }

  /** `str(n)` */
  function Decimal(n: int): string {
    if n < 0 then "-" + NatDigits(-n) else NatDigits(n)
  }

  lemma {:induction false} NatDigitsValue(n: nat)
    ensures DigitsValue(NatDigits(n)) == n
  {
    if n >= 10 {
      NatDigitsValue(n / 10);
      var s := NatDigits(n);
      assert Front(s) == NatDigits(n / 10);
    }
  }

  /** A run of digits reads back as its value. */
  lemma {:induction false} DigitsRoundTrip(n: nat)
    ensures DecimalValue(NatDigits(n)) == Some(n)
  {
    var digits := NatDigits(n);
    NatDigitsValue(n);
    assert '0' <= digits[0] <= '9';
  }

  /** A minus sign before the digits of a positive number reads back as its negation. */
  lemma {:induction false} NegativeRoundTrip(n: nat)
    requires n > 0
    ensures DecimalValue("-" + NatDigits(n)) == Some(-(n as int))
  {
    var digits := NatDigits(n);
    NatDigitsValue(n);
    var text := "-" + digits;
    assert text[0] == '-' && text[1..] == digits;
  }

  /** Every integer written in decimal reads back as itself. */
  lemma {:induction false} DecimalRoundTrip(n: int)
    ensures DecimalValue(Decimal(n)) == Some(n)
  {
    if n < 0 {
      NegativeRoundTrip(-n);
    } else {
      DigitsRoundTrip(n);
    }
  }

  // ----- the scan -----

  /**
   * The loop of `init` from the point where `rest` is what is left of the
   * argument list, `stdin` what is left unread on standard input, `decls`
   * the `-s`/`-c` declarations seen so far and `maxCoro` the current limit.
   * `-stdin` reads all of standard input, so a later `-stdin` reads "".
   */
  function Scan(rest: seq<string>, stdin: string, decls: seq<Decl>, maxCoro: int): Outcome<Decl>
    decreases |stdin|, |rest|
  {
    if rest == [] then Ready(decls, maxCoro)
    else
      var flag := rest[0];
      if flag in HelpFlags then Exit(0)
      else if flag == "-stdin" then
        Scan(ConcurrentArgs(Lines(stdin)) + rest[1..], "", decls, maxCoro)
      else if !IsFlag(flag) then Exit(1)
      else if |rest| < 2 then Exit(1)
      else
        var value := rest[1];
        if flag == "-n" then
          match DecimalValue(value)
          case None => BadLimit(value)
          case Some(n) => Scan(rest[2..], stdin, decls, n)
        else if flag == "-s" then Scan(rest[2..], stdin, decls + [Decl(Sequential, value)], maxCoro)
        else if flag == "-c" then Scan(rest[2..], stdin, decls + [Decl(Parallelized, value)], maxCoro)
        else Scan(rest[2..], stdin, decls, maxCoro)
  }

  /** `init` as a whole: the chain and the limit, or how it stops. */
  function Parse(args: seq<string>, stdin: string): (r: Outcome<JobValue>)
    ensures r.Ready? ==> WellFormed(r.items)
  {
    if |args| < 1 then Exit(0)
    else
      match Scan(args, stdin, [], DefaultMaxCoro)
      case Ready(decls, n) =>
        BuildWellFormed(decls);
        Ready(Build(decls), n)
      case Exit(code) => Exit(code)
      case BadLimit(text) => BadLimit(text)
  }

  // ----- properties of the scan -----

  /** The spliced `-c line` pairs are read as one `-c` declaration per line. */
  lemma {:induction false} ScanConcurrentArgs(lines: seq<string>, post: seq<string>, stdin: string, decls: seq<Decl>, maxCoro: int)
    ensures Scan(ConcurrentArgs(lines) + post, stdin, decls, maxCoro)
         == Scan(post, stdin, decls + ConcurrentDecls(lines), maxCoro)
  {
    ScanRender(ConcurrentDecls(lines), post, stdin, decls, maxCoro);
  }

  /** `-stdin` acts exactly as `-c line` written for each non-empty line of standard input. */
  lemma {:induction false} StdinAsConcurrent(post: seq<string>, stdin: string, decls: seq<Decl>, maxCoro: int)
    ensures Scan(["-stdin"] + post, stdin, decls, maxCoro)
         == Scan(post, "", decls + ConcurrentDecls(Lines(stdin)), maxCoro)
  {
    assert (["-stdin"] + post)[1..] == post;
    ScanConcurrentArgs(Lines(stdin), post, "", decls, maxCoro);
  }

  /** The documented ways `init` exits. */
  lemma {:induction false} ExitConditions(flag: string, post: seq<string>, stdin: string, decls: seq<Decl>, maxCoro: int)
    ensures Parse([], stdin) == Exit(0)
    ensures flag in HelpFlags ==> Scan([flag] + post, stdin, decls, maxCoro) == Exit(0)
    ensures !IsFlag(flag) ==> Scan([flag] + post, stdin, decls, maxCoro) == Exit(1)
    ensures IsFlag(flag) && flag !in HelpFlags && flag != "-stdin" ==>
      Scan([flag], stdin, decls, maxCoro) == Exit(1)
  {
  }

  /** `init` exits only with code 0 or 1. */
  lemma {:induction false} ExitCodes(rest: seq<string>, stdin: string, decls: seq<Decl>, maxCoro: int)
    ensures Scan(rest, stdin, decls, maxCoro).Exit? ==> Scan(rest, stdin, decls, maxCoro).code in {0, 1}
    decreases |stdin|, |rest|
  {
    if rest != [] {
      var flag := rest[0];
      if flag in HelpFlags {
      } else if flag == "-stdin" {
        ExitCodes(ConcurrentArgs(Lines(stdin)) + rest[1..], "", decls, maxCoro);
      } else if !IsFlag(flag) || |rest| < 2 {
      } else if flag == "-n" {
        match DecimalValue(rest[1])
        case None =>
        case Some(n) => ExitCodes(rest[2..], stdin, decls, n);
      } else if flag == "-s" {
        ExitCodes(rest[2..], stdin, decls + [Decl(Sequential, rest[1])], maxCoro);
      } else if flag == "-c" {
        ExitCodes(rest[2..], stdin, decls + [Decl(Parallelized, rest[1])], maxCoro);
      } else {
        ExitCodes(rest[2..], stdin, decls, maxCoro);
      }
    }
  }

  /** Declarations are only ever added, at the end, in argument order. */
  lemma {:induction false} ScanExtendsDecls(rest: seq<string>, stdin: string, decls: seq<Decl>, maxCoro: int)
    ensures Scan(rest, stdin, decls, maxCoro).Ready? ==> decls <= Scan(rest, stdin, decls, maxCoro).items
    decreases |stdin|, |rest|
  {
    if rest != [] {
      var flag := rest[0];
      if flag in HelpFlags {
      } else if flag == "-stdin" {
        ScanExtendsDecls(ConcurrentArgs(Lines(stdin)) + rest[1..], "", decls, maxCoro);
      } else if !IsFlag(flag) || |rest| < 2 {
      } else if flag == "-n" {
        match DecimalValue(rest[1])
        case None =>
        case Some(n) => ScanExtendsDecls(rest[2..], stdin, decls, n);
      } else if flag == "-s" {
        ScanExtendsDecls(rest[2..], stdin, decls + [Decl(Sequential, rest[1])], maxCoro);
      } else if flag == "-c" {
        ScanExtendsDecls(rest[2..], stdin, decls + [Decl(Parallelized, rest[1])], maxCoro);
      } else {
        ScanExtendsDecls(rest[2..], stdin, decls, maxCoro);
      }
    }
  }

  /**
   * No `-n` is read as a flag in what is left of the arguments: the scan
   * takes `-stdin` alone, stops at a help flag, a token without a dash or a
   * flag with no value, and takes any other flag with its value. A `-n` that
   * is only the value of another option does not count.
   */
  predicate NoLimitFlag(rest: seq<string>)
    decreases |rest|
  {
    if rest == [] then true
    else
      var flag := rest[0];
      if flag in HelpFlags then true
      else if flag == "-stdin" then NoLimitFlag(rest[1..])
      else if !IsFlag(flag) || |rest| < 2 then true
      else flag != "-n" && NoLimitFlag(rest[2..])
  }

  /**
   * Only `-n` changes the limit: where no `-n` is left in flag position, the
   * limit in force is the one the scan ends with (the lines of standard input
   * are only ever read as commands, never as flags).
   */
  lemma {:induction false} LimitUnchanged(rest: seq<string>, stdin: string, decls: seq<Decl>, maxCoro: int)
    requires NoLimitFlag(rest)
    ensures Scan(rest, stdin, decls, maxCoro).Ready? ==> Scan(rest, stdin, decls, maxCoro).maxCoro == maxCoro
    decreases |stdin|, |rest|
  {
    if rest != [] {
      var flag := rest[0];
      if flag in HelpFlags {
      } else if flag == "-stdin" {
        StdinAsConcurrent(rest[1..], stdin, decls, maxCoro);
        assert rest == ["-stdin"] + rest[1..];
        LimitUnchanged(rest[1..], "", decls + ConcurrentDecls(Lines(stdin)), maxCoro);
      } else if !IsFlag(flag) || |rest| < 2 {
      } else {
        if flag == "-s" {
          LimitUnchanged(rest[2..], stdin, decls + [Decl(Sequential, rest[1])], maxCoro);
        } else if flag == "-c" {
          LimitUnchanged(rest[2..], stdin, decls + [Decl(Parallelized, rest[1])], maxCoro);
        } else {
          LimitUnchanged(rest[2..], stdin, decls, maxCoro);
        }
      }
    }
  }

  /** `-n value` with an integer value sets the limit and nothing else. */
  lemma {:induction false} ScanLimit(value: string, n: int, post: seq<string>, stdin: string, decls: seq<Decl>, maxCoro: int)
    requires DecimalValue(value) == Some(n)
    ensures Scan(["-n", value] + post, stdin, decls, maxCoro) == Scan(post, stdin, decls, n)
  {
    var rest := ["-n", value] + post;
    assert rest[0] == "-n" && rest[1] == value && rest[2..] == post;
    assert "-n" !in HelpFlags;
  }

  /** The last `-n` wins: the limit is the value of the last `-n` the scan reads. */
  lemma {:induction false} LastLimitWins(value: string, n: int, post: seq<string>, stdin: string, decls: seq<Decl>, maxCoro: int)
    requires DecimalValue(value) == Some(n)
    requires NoLimitFlag(post)
    ensures Scan(["-n", value] + post, stdin, decls, maxCoro).Ready? ==>
      Scan(["-n", value] + post, stdin, decls, maxCoro).maxCoro == n
  {
    ScanLimit(value, n, post, stdin, decls, maxCoro);
    LimitUnchanged(post, stdin, decls, n);
  }

  /** `crun -n 3 -s -n`: the second `-n` is only the command of `-s`, so the limit stays 3. */
  lemma {:induction false} LimitAsValue(stdin: string)
    ensures Parse(["-n", "3", "-s", "-n"], stdin) == Ready([JobValue(Sequential, ["-n"])], 3)
  {
    var d := Decl(Sequential, "-n");
    assert DigitsValue("3") == 3;
    assert ["-n", "3", "-s", "-n"] == ["-n", "3"] + ([FlagOf(d.kind), d.cmd] + []);
    ScanLimit("3", 3, [FlagOf(d.kind), d.cmd] + [], stdin, [], DefaultMaxCoro);
    LastLimitWins("3", 3, [FlagOf(d.kind), d.cmd] + [], stdin, [], DefaultMaxCoro);
    ScanDecl(d, [], stdin, [], 3);
    assert [] + [d] == [d];
    SequentialAppends([], "-n");
  }

  /** A dash flag crun does not know consumes its value and changes nothing. */
  lemma {:induction false} UnknownFlagSkipped(flag: string, value: string, post: seq<string>, stdin: string, decls: seq<Decl>, maxCoro: int)
    requires IsFlag(flag)
    requires flag !in HelpFlags && flag !in ["-stdin", "-n", "-s", "-c"]
    ensures Scan([flag, value] + post, stdin, decls, maxCoro) == Scan(post, stdin, decls, maxCoro)
  {
    assert ([flag, value] + post)[2..] == post;
  }

  // ----- rendering declarations as arguments -----

  function FlagOf(kind: Kind): string {
    match kind
    case Sequential => "-s"
    case Parallelized => "-c"
  }

  /** The declarations written out as `-s cmd` / `-c cmd` pairs. */
  function Render(decls: seq<Decl>): (args: seq<string>)
    ensures |args| == 2 * |decls|
  {
    if decls == [] then [] else Render(Front(decls)) + [FlagOf(Last(decls).kind), Last(decls).cmd]
  }

  lemma {:induction false} RenderSnoc(decls: seq<Decl>, d: Decl)
    ensures Render(decls + [d]) == Render(decls) + [FlagOf(d.kind), d.cmd]
  {
    assert Front(decls + [d]) == decls;
  }

  /** One rendered declaration is read back as that declaration. */
  lemma {:induction false} ScanDecl(d: Decl, post: seq<string>, stdin: string, acc: seq<Decl>, maxCoro: int)
    ensures Scan([FlagOf(d.kind), d.cmd] + post, stdin, acc, maxCoro) == Scan(post, stdin, acc + [d], maxCoro)
  {
    var rest := [FlagOf(d.kind), d.cmd] + post;
    assert rest[2..] == post && rest[0] == FlagOf(d.kind) && rest[1] == d.cmd;
    assert FlagOf(d.kind) !in HelpFlags;
    if d.kind == Sequential {
      assert Scan(rest, stdin, acc, maxCoro) == Scan(post, stdin, acc + [Decl(Sequential, d.cmd)], maxCoro);
    } else {
      assert Scan(rest, stdin, acc, maxCoro) == Scan(post, stdin, acc + [Decl(Parallelized, d.cmd)], maxCoro);
    }
  }

  lemma {:induction false} ScanRender(decls: seq<Decl>, post: seq<string>, stdin: string, acc: seq<Decl>, maxCoro: int)
    ensures Scan(Render(decls) + post, stdin, acc, maxCoro) == Scan(post, stdin, acc + decls, maxCoro)
  {
    if decls == [] {
      assert Render(decls) + post == post;
      assert acc + [] == acc;
    } else {
      var front, d := Front(decls), Last(decls);
      var pair := [FlagOf(d.kind), d.cmd] + post;
      ScanRender(front, pair, stdin, acc, maxCoro);
      AppendAssoc(Render(front), [FlagOf(d.kind), d.cmd], post);
      ScanDecl(d, post, stdin, acc + front, maxCoro);
      FrontLast(decls);
      AppendAssoc(acc, front, [d]);
    }
  }

  /**
   * Any declarations written out after `-n limit` are read back exactly:
   * `init` returns the chain they build and that limit, whatever the
   * commands say and whatever is on standard input.
   */
  lemma {:induction false} RenderRoundTrip(decls: seq<Decl>, limit: int, stdin: string)
    ensures Parse(["-n", Decimal(limit)] + Render(decls), stdin) == Ready(Build(decls), limit)
  {
    DecimalRoundTrip(limit);
    assert Render(decls) + [] == Render(decls);
    ScanLimit(Decimal(limit), limit, Render(decls), stdin, [], DefaultMaxCoro);
    ScanRender(decls, [], stdin, [], limit);
    assert [] + decls == decls;
  }

  /** Without `-n` the limit is 4. */
  lemma {:induction false} DefaultLimit(decls: seq<Decl>, stdin: string)
    requires decls != []
    ensures Parse(Render(decls), stdin) == Ready(Build(decls), DefaultMaxCoro)
  {
    assert Render(decls) + [] == Render(decls);
    ScanRender(decls, [], stdin, [], DefaultMaxCoro);
    assert [] + decls == decls;
  }

  /** `crun -n k -stdin`: the non-empty lines of standard input form one parallel group. */
  lemma {:induction false} StdinGroup(limit: int, stdin: string)
    requires Lines(stdin) != []
    ensures Parse(["-n", Decimal(limit), "-stdin"], stdin)
         == Ready([JobValue(Parallelized, Lines(stdin))], limit)
  {
    var lines := Lines(stdin);
    DecimalRoundTrip(limit);
    assert ["-n", Decimal(limit), "-stdin"] == ["-n", Decimal(limit)] + (["-stdin"] + []);
    ScanLimit(Decimal(limit), limit, ["-stdin"] + [], stdin, [], DefaultMaxCoro);
    StdinAsConcurrent([], stdin, [], limit);
    assert [] + ConcurrentDecls(lines) == ConcurrentDecls(lines);
    assert Scan(["-n", Decimal(limit), "-stdin"], stdin, [], DefaultMaxCoro) == Ready(ConcurrentDecls(lines), limit);
    GroupFromDecls([], lines);
    assert Build(ConcurrentDecls(lines)) == [JobValue(Parallelized, lines)];
  }

  /** The scan of `crun -n k -s first -stdin -s last`. */
  lemma {:induction false} StdinBetweenScan(limit: int, first: string, last: string, stdin: string)
    ensures Scan(["-n", Decimal(limit), "-s", first, "-stdin", "-s", last], stdin, [], DefaultMaxCoro)
         == Ready([Decl(Sequential, first)] + ConcurrentDecls(Lines(stdin)) + [Decl(Sequential, last)], limit)
  {
    var s1, s2 := Decl(Sequential, first), Decl(Sequential, last);
    var tail := ["-s", last] + [];
    var afterFirst := ["-stdin"] + tail;
    DecimalRoundTrip(limit);
    assert ["-n", Decimal(limit), "-s", first, "-stdin", "-s", last]
        == ["-n", Decimal(limit)] + (["-s", first] + afterFirst);
    ScanLimit(Decimal(limit), limit, ["-s", first] + afterFirst, stdin, [], DefaultMaxCoro);
    ScanDecl(s1, afterFirst, stdin, [], limit);
    assert [] + [s1] == [s1];
    StdinAsConcurrent(tail, stdin, [s1], limit);
    ScanDecl(s2, [], "", [s1] + ConcurrentDecls(Lines(stdin)), limit);
  }

  /**
   * `crun -n k -s first -stdin -s last`: the lines of standard input form
   * one parallel group between the two sequential jobs.
   */
  lemma {:induction false} StdinBetweenSequential(limit: int, first: string, last: string, stdin: string)
    requires Lines(stdin) != []
    ensures Parse(["-n", Decimal(limit), "-s", first, "-stdin", "-s", last], stdin)
         == Ready([JobValue(Sequential, [first]), JobValue(Parallelized, Lines(stdin)), JobValue(Sequential, [last])], limit)
  {
    var lines := Lines(stdin);
    var s1 := Decl(Sequential, first);
    var group := JobValue(Parallelized, lines);
    StdinBetweenScan(limit, first, last, stdin);
    SequentialAppends([], first);
    assert [] + [s1] == [s1];
    GroupFromDecls([s1], lines);
    SequentialAppends([s1] + JobDecls(group), last);
  }

  /** The usage-text declarations build job1, then job2-job4 together, then job5, then job6. */
  lemma {:induction false} UsageChain()
    ensures Build([Decl(Sequential, "job1"), Decl(Parallelized, "job2"), Decl(Parallelized, "job3"),
                   Decl(Parallelized, "job4"), Decl(Sequential, "job5"), Decl(Sequential, "job6")])
         == [JobValue(Sequential, ["job1"]), JobValue(Parallelized, ["job2", "job3", "job4"]),
             JobValue(Sequential, ["job5"]), JobValue(Sequential, ["job6"])]
  {
    var d1, d2, d3 := Decl(Sequential, "job1"), Decl(Parallelized, "job2"), Decl(Parallelized, "job3");
    var d4, d5, d6 := Decl(Parallelized, "job4"), Decl(Sequential, "job5"), Decl(Sequential, "job6");
    BuildSnoc([], d1);
    assert Build([d1]) == [JobValue(Sequential, ["job1"])];
    BuildSnoc([d1], d2);
    assert Build([d1, d2]) == [JobValue(Sequential, ["job1"]), JobValue(Parallelized, ["job2"])];
    BuildSnoc([d1, d2], d3);
    assert [d1, d2] + [d3] == [d1, d2, d3];
    assert Front(Build([d1, d2])) == [JobValue(Sequential, ["job1"])];
    assert Last(Build([d1, d2])) == JobValue(Parallelized, ["job2"]);
    assert ["job2"] + ["job3"] == ["job2", "job3"];
    var b3 := Build([d1, d2, d3]);
    assert b3 == Front(b3) + [Last(b3)];
    assert Build([d1, d2, d3]) == [JobValue(Sequential, ["job1"]), JobValue(Parallelized, ["job2", "job3"])];
    BuildSnoc([d1, d2, d3], d4);
    assert [d1, d2, d3] + [d4] == [d1, d2, d3, d4];
    assert ["job2", "job3"] + ["job4"] == ["job2", "job3", "job4"];
    var b4 := Build([d1, d2, d3, d4]);
    assert b4 == Front(b4) + [Last(b4)];
    var group := [JobValue(Sequential, ["job1"]), JobValue(Parallelized, ["job2", "job3", "job4"])];
    assert Build([d1, d2, d3, d4]) == group;
    BuildSnoc([d1, d2, d3, d4], d5);
    assert [d1, d2, d3, d4] + [d5] == [d1, d2, d3, d4, d5];
    assert Build([d1, d2, d3, d4, d5]) == group + [JobValue(Sequential, ["job5"])];
    BuildSnoc([d1, d2, d3, d4, d5], d6);
    assert [d1, d2, d3, d4, d5] + [d6] == [d1, d2, d3, d4, d5, d6];
  }

  /** The first three declarations of the usage text, written out. */
  lemma {:induction false} UsageRenderStart()
    ensures Render([Decl(Sequential, "job1"), Decl(Parallelized, "job2"), Decl(Parallelized, "job3")])
         == ["-s", "job1", "-c", "job2", "-c", "job3"]
  {
    var d1, d2, d3 := Decl(Sequential, "job1"), Decl(Parallelized, "job2"), Decl(Parallelized, "job3");
    RenderSnoc([], d1);
    assert Render([d1]) == ["-s", "job1"];
    RenderSnoc([d1], d2);
    assert Render([d1, d2]) == ["-s", "job1", "-c", "job2"];
    RenderSnoc([d1, d2], d3);
    assert [d1, d2] + [d3] == [d1, d2, d3];
  }

  /** All six declarations of the usage text, written out. */
  lemma {:induction false} UsageRender()
    ensures Render([Decl(Sequential, "job1"), Decl(Parallelized, "job2"), Decl(Parallelized, "job3"),
                    Decl(Parallelized, "job4"), Decl(Sequential, "job5"), Decl(Sequential, "job6")])
         == ["-s", "job1", "-c", "job2", "-c", "job3", "-c", "job4", "-s", "job5", "-s", "job6"]
  {
    var d1, d2, d3 := Decl(Sequential, "job1"), Decl(Parallelized, "job2"), Decl(Parallelized, "job3");
    var d4, d5, d6 := Decl(Parallelized, "job4"), Decl(Sequential, "job5"), Decl(Sequential, "job6");
    UsageRenderStart();
    RenderSnoc([d1, d2, d3], d4);
    assert [d1, d2, d3] + [d4] == [d1, d2, d3, d4];
    assert Render([d1, d2, d3, d4]) == ["-s", "job1", "-c", "job2", "-c", "job3", "-c", "job4"];
    RenderSnoc([d1, d2, d3, d4], d5);
    assert [d1, d2, d3, d4] + [d5] == [d1, d2, d3, d4, d5];
    assert Render([d1, d2, d3, d4, d5]) == ["-s", "job1", "-c", "job2", "-c", "job3", "-c", "job4", "-s", "job5"];
    RenderSnoc([d1, d2, d3, d4, d5], d6);
    assert [d1, d2, d3, d4, d5] + [d6] == [d1, d2, d3, d4, d5, d6];
  }

  /** The workflow of crun's usage text, `crun -n 4 -s job1 -c job2 -c job3 -c job4 -s job5 -s job6`. */
  lemma {:induction false} UsageExample(stdin: string)
    ensures Parse(["-n", "4", "-s", "job1", "-c", "job2", "-c", "job3", "-c", "job4", "-s", "job5", "-s", "job6"], stdin)
         == Ready([JobValue(Sequential, ["job1"]), JobValue(Parallelized, ["job2", "job3", "job4"]),
                   JobValue(Sequential, ["job5"]), JobValue(Sequential, ["job6"])], 4)
  {
    var decls := [Decl(Sequential, "job1"), Decl(Parallelized, "job2"), Decl(Parallelized, "job3"),
                  Decl(Parallelized, "job4"), Decl(Sequential, "job5"), Decl(Sequential, "job6")];
    UsageRender();
    assert Decimal(4) == "4";
    assert ["-n", Decimal(4)] + Render(decls)
        == ["-n", "4", "-s", "job1", "-c", "job2", "-c", "job3", "-c", "job4", "-s", "job5", "-s", "job6"];
    RenderRoundTrip(decls, 4, stdin);
    UsageChain();
  }
}

=== FILE: crun.dfy ===
/**
 * crun's `init` and `main` as the program runs them: a loop over the
 * argument list that appends jobs to a list and extends the last job in
 * place, and a walk over the jobs that dispatches them in order.
 */
module Crun {
  import opened Jobs
  import opened Arguments
  import opened Schedule

  /** A job of the chain; `-c` appends to the `cmds` of the last job in place. */
  class Job {
    var kind: Kind
    var cmds: seq<Command>

    constructor (kind: Kind, cmds: seq<Command>)
      ensures this.kind == kind && this.cmds == cmds
    {
      this.kind := kind;
      this.cmds := cmds;
    }

    function Value(): JobValue
      reads this
    {
      JobValue(kind, cmds)
    }
  }

  /** The values the jobs hold now, in list order. */
  function Snapshot(jobs: seq<Job>): (chain: seq<JobValue>)
    reads jobs
    ensures |chain| == |jobs|
    ensures forall k :: 0 <= k < |jobs| ==> chain[k] == jobs[k].Value()
  {
    if jobs == [] then [] else Snapshot(Front(jobs)) + [Last(jobs).Value()]
  }

  lemma {:induction false} SnapshotSnoc(jobs: seq<Job>, job: Job)
    ensures Snapshot(jobs + [job]) == Snapshot(jobs) + [job.Value()]
  {
    assert Front(jobs + [job]) == jobs;
  }

  /** No job object occurs twice in the list. */
  predicate Distinct(jobs: seq<Job>) {
    forall i, j :: 0 <= i < j < |jobs| ==> jobs[i] != jobs[j]
  }

  /** The `-c line` pairs built for `-stdin`, one pair per line. */
  method ToConcurrentArgs(lines: seq<string>) returns (converted: seq<string>)
    ensures converted == ConcurrentArgs(lines)
  {
    converted := [];
    for k := 0 to |lines|
      invariant converted == ConcurrentArgs(lines[..k])
    {
      assert lines[..k + 1] == lines[..k] + [lines[k]];
      ConcurrentArgsSnoc(lines[..k], lines[k]);
      converted := converted + ["-c"];
      converted := converted + [lines[k]];
    }
    assert lines[..|lines|] == lines;
  }

  /** `jobs.append(Job(kind, [cmd]))`: a new job object at the end of the list. */
  method AppendJob(jobs: seq<Job>, kind: Kind, cmd: Command) returns (result: seq<Job>)
    requires Distinct(jobs)
    ensures Snapshot(result) == Snapshot(jobs) + [JobValue(kind, [cmd])]
    ensures Distinct(result)
    ensures result != [] && Front(result) == jobs && fresh(Last(result))
  {
    var job := new Job(kind, [cmd]);
    SnapshotSnoc(jobs, job);
    result := jobs + [job];
    assert Front(result) == jobs;
  }

  /** `jobs[-1].cmds.append(cmd)`: the last job object gets one more command. */
  method ExtendLast(jobs: seq<Job>, cmd: Command)
    requires jobs != [] && Distinct(jobs)
    modifies Last(jobs)
    ensures Snapshot(jobs) == Front(old(Snapshot(jobs))) + [JobValue(old(Last(jobs).kind), old(Last(jobs).cmds) + [cmd])]
  {
    var prevJob := jobs[|jobs| - 1];
    assert prevJob !in Front(jobs);
    FrontLast(jobs);
    SnapshotSnoc(Front(jobs), prevJob);
    prevJob.cmds := prevJob.cmds + [cmd];
    SnapshotSnoc(Front(jobs), prevJob);
  }

  /**
   * What `-s value` and `-c value` do to the job list: `-s` appends a new
   * sequential job; `-c` appends the command to the last job in place when
   * that job is a parallel group, and appends a new group otherwise.
   */
  method AddJob(jobs: seq<Job>, d: Decl) returns (result: seq<Job>)
    requires Distinct(jobs)
    modifies if jobs == [] then {} else {Last(jobs)}
    ensures Snapshot(result) == Add(old(Snapshot(jobs)), d)
    ensures Distinct(result)
    ensures result != [] && (fresh(Last(result)) || (jobs != [] && Last(result) == Last(jobs)))
  {
    if d.kind == Sequential {
      result := AppendJob(jobs, Sequential, d.cmd);
    } else if jobs != [] && jobs[|jobs| - 1].kind == Parallelized {
      ExtendLast(jobs, d.cmd);
      result := jobs;
    } else {
      result := AppendJob(jobs, Parallelized, d.cmd);
    }
  }

  /**
   * `-stdin` at position `i - 1`: the lines of standard input, as `-c line`
   * pairs, are inserted into the argument list right after it, so that the
   * scan goes on over them and then over the arguments that followed.
   */
  method SpliceStdin(args: seq<string>, i: nat, unread: string, ghost decls: seq<Decl>, ghost maxCoro: int)
    returns (spliced: seq<string>)
    requires 1 <= i <= |args| && args[i - 1] == "-stdin"
    ensures |spliced| == |args| + 2 * |Lines(unread)|
    ensures spliced[..i] == args[..i]
    ensures spliced[i..] == ConcurrentArgs(Lines(unread)) + args[i..]
    ensures Scan(spliced[i..], "", decls, maxCoro) == Scan(args[i - 1..], unread, decls, maxCoro)
  {
    var lines := Lines(unread);
    var converted := ToConcurrentArgs(lines);
    ghost var rest := args[i..];
    assert args[i - 1..] == ["-stdin"] + rest;
    StdinAsConcurrent(rest, unread, decls, maxCoro);
    ScanConcurrentArgs(lines, rest, "", decls, maxCoro);
    spliced := args[..i] + converted + args[i..];
    assert spliced[i..] == converted + rest;
  }

  /**
   * One option of `init` with its value: `-n` sets the limit (a value
   * `int` rejects stops the program), `-s` and `-c` add to the job list,
   * and any other option is skipped together with its value. The scan of
   * the remaining arguments goes on from the new state, or stops where the
   * scan stops.
   */
  method ApplyOption(flag: string, value: string, jobs: seq<Job>, maxCoro: int,
                     ghost decls: seq<Decl>, ghost post: seq<string>, ghost unread: string)
    returns (newJobs: seq<Job>, newMaxCoro: int, ghost newDecls: seq<Decl>, ok: bool)
    requires IsFlag(flag) && flag !in HelpFlags && flag != "-stdin"
    requires Distinct(jobs) && Snapshot(jobs) == Build(decls)
    modifies if jobs == [] then {} else {Last(jobs)}
    ensures ok ==> Scan([flag, value] + post, unread, decls, maxCoro) == Scan(post, unread, newDecls, newMaxCoro)
    ensures !ok ==> Scan([flag, value] + post, unread, decls, maxCoro) == BadLimit(value)
    ensures Snapshot(newJobs) == Build(newDecls) && Distinct(newJobs)
    ensures newJobs == jobs || (newJobs != [] && fresh(Last(newJobs))) || (jobs != [] && newJobs != [] && Last(newJobs) == Last(jobs))
  {
    newJobs, newMaxCoro, newDecls, ok := jobs, maxCoro, decls, true;
    if flag == "-n" {
      match DecimalValue(value)
      case None =>
        ok := false;
      case Some(n) =>
        newMaxCoro := n;
    } else if flag == "-s" || flag == "-c" {
      var d := Decl(if flag == "-s" then Sequential else Parallelized, value);
      newJobs := AddJob(jobs, d);
      BuildSnoc(decls, d);
      newDecls := decls + [d];
    } else {
      UnknownFlagSkipped(flag, value, post, unread, decls, maxCoro);
    }
  }

  /**
   * `init`: scans the arguments with an index it advances by hand, splices
   * the lines of standard input in after `-stdin`, and builds the jobs.
   * `cmdline` is the argument list after the program name. The jobs it
   * returns are distinct objects whose values are the chain Parse describes.
   */
  method Init(cmdline: seq<string>, stdin: string) returns (r: Outcome<Job>)
    ensures r.Ready? ==> Parse(cmdline, stdin) == Ready(Snapshot(r.items), r.maxCoro) && Distinct(r.items)
    ensures r.Exit? ==> Parse(cmdline, stdin) == Exit(r.code)
    ensures r.BadLimit? ==> Parse(cmdline, stdin) == BadLimit(r.text)
  {
    var args := cmdline;
    var nargs := |args|;
    if nargs < 1 {
      return Exit(0);
    }
    var jobs: seq<Job> := [];
    var i := 0;
    var maxCoro := DefaultMaxCoro;
    var unread := stdin;
    ghost var decls: seq<Decl> := [];
    ghost var outcome := Scan(cmdline, stdin, [], DefaultMaxCoro);
    while i < nargs
      invariant nargs == |args| && 0 <= i <= nargs
      invariant Scan(args[i..], unread, decls, maxCoro) == outcome
      invariant Snapshot(jobs) == Build(decls)
      invariant Distinct(jobs)
      invariant jobs != [] ==> fresh(Last(jobs))
      decreases |unread|, nargs - i
    {
      var flag := args[i];
      assert args[i..] == [flag] + args[i + 1..];
      i := i + 1;
      if flag in HelpFlags {
        assert outcome == Exit(0);
        return Exit(0);
      } else if flag == "-stdin" {
        args := SpliceStdin(args, i, unread, decls, maxCoro);
        nargs := |args|;
        unread := "";
      } else if !IsFlag(flag) {
        assert outcome == Exit(1);
        return Exit(1);
      } else if i >= nargs {
        assert outcome == Exit(1);
        return Exit(1);
      } else {
        var value := args[i];
        i := i + 1;
        assert args[i - 2..] == [flag, value] + args[i..];
        var ok;
        jobs, maxCoro, decls, ok := ApplyOption(flag, value, jobs, maxCoro, decls, args[i..], unread);
        if !ok {
          assert outcome == BadLimit(value);
          return BadLimit(value);
        }
      }
    }
    assert args[i..] == [];
    assert outcome == Ready(decls, maxCoro);
    return Ready(jobs, maxCoro);
  }

  /**
   * The walk of `main`: jobs in list order, a sequential job by running its
   * first command, a parallel group by handing all its commands to the
   * limiter. The trace is the plan of the jobs' values.
   */
  method Dispatch(jobs: seq<Job>, maxCoro: int) returns (trace: seq<Step>)
    requires Runnable(Snapshot(jobs))
    ensures trace == Plan(Snapshot(jobs), maxCoro)
  {
    ghost var chain := Snapshot(jobs);
    trace := [];
    for k := 0 to |jobs|
      invariant Runnable(chain[..k])
      invariant trace == Plan(chain[..k], maxCoro)
    {
      var job := jobs[k];
      assert chain[k] == job.Value();
      PlanPrefix(chain, k, maxCoro);
      if job.kind == Sequential {
        var cmd := job.cmds[0];
        trace := trace + [RunOne(cmd)];
      } else {
        trace := trace + [RunGroup(job.cmds, maxCoro)];
      }
    }
    assert chain[..|jobs|] == chain;
  }

  /** `main`: build the jobs with `init`, then dispatch them. */
  method RunMain(args: seq<string>, stdin: string) returns (e: Execution)
    ensures e == Behaviour(args, stdin)
  {
    var init := Init(args, stdin);
    match init
    case Exit(code) =>
      e := Exited(code);
    case BadLimit(text) =>
      e := Crashed(text);
    case Ready(jobs, maxCoro) =>
      WellFormedRunnable(Snapshot(jobs));
      var trace := Dispatch(jobs, maxCoro);
      e := Dispatched(trace);
  }
}

=== FILE: jobs.dfy ===
/**
 * The job chain of crun: an ordered list of jobs, each either one
 * sequential command or a group of commands that may run concurrently,
 * and the rule by which `-s` and `-c` declarations build it.
 */
module Jobs {

  /** A shell command line; the runner never looks inside it. */
  type Command = string

  datatype Kind = Sequential | Parallelized

  /** The value of one chain element (a `Job` record of crun.py). */
  datatype JobValue = JobValue(kind: Kind, cmds: seq<Command>)

  /** One declaration on the command line: `-s cmd` (Sequential) or `-c cmd` (Parallelized). */
  datatype Decl = Decl(kind: Kind, cmd: Command)

  function Last<T>(s: seq<T>): T
    requires s != []
  {
    s[|s| - 1]
  }

  function Front<T>(s: seq<T>): seq<T>
    requires s != []
  {
    s[..|s| - 1]
  }

  lemma {:induction false} FrontLast<T>(s: seq<T>)
    requires s != []
    ensures s == Front(s) + [Last(s)]
  {
  }

  lemma {:induction false} AppendAssoc<T>(a: seq<T>, b: seq<T>, c: seq<T>)
    ensures a + (b + c) == (a + b) + c
  {
  }

  /**
   * The shape every chain built from declarations has: no job without a
   * command, a sequential job holds exactly one command, and no two
   * neighbouring jobs are both parallel groups.
   */
  predicate WellFormed(chain: seq<JobValue>) {
    (forall k :: 0 <= k < |chain| ==>
      chain[k].cmds != [] && (chain[k].kind == Sequential ==> |chain[k].cmds| == 1))
    && (forall k :: 0 < k < |chain| ==>
      chain[k - 1].kind == Sequential || chain[k].kind == Sequential)
  }

  /** All commands of the chain, job after job. */
  function Flatten(chain: seq<JobValue>): seq<Command> {
    if chain == [] then [] else Flatten(Front(chain)) + Last(chain).cmds
  }

  /** The commands of the declarations, in declaration order. */
  function Commands(decls: seq<Decl>): seq<Command> {
    seq(|decls|, k requires 0 <= k < |decls| => decls[k].cmd)
  }

  /**
   * One declaration applied to the chain: `-s` always opens a new
   * sequential job; `-c` joins the last job when that job is a parallel
   * group and opens a new parallel group otherwise.
   */
  function Add(chain: seq<JobValue>, d: Decl): seq<JobValue> {
    match d.kind
    case Sequential => chain + [JobValue(Sequential, [d.cmd])]
    case Parallelized =>
      if chain != [] && Last(chain).kind == Parallelized then
        Front(chain) + [JobValue(Parallelized, Last(chain).cmds + [d.cmd])]
      else chain + [JobValue(Parallelized, [d.cmd])]
  }

  /** Adding a declaration keeps a chain well formed. */
  lemma {:induction false} AddWellFormed(chain: seq<JobValue>, d: Decl)
    requires WellFormed(chain)
    ensures WellFormed(Add(chain, d))
  {
  }

  lemma {:induction false} FlattenSnoc(chain: seq<JobValue>, job: JobValue)
    ensures Flatten(chain + [job]) == Flatten(chain) + job.cmds
  {
    assert Front(chain + [job]) == chain;
  }

  /** Adding a declaration puts its command after all commands already in the chain. */
  lemma {:induction false} AddFlatten(chain: seq<JobValue>, d: Decl)
    ensures Flatten(Add(chain, d)) == Flatten(chain) + [d.cmd]
  {
    if d.kind == Parallelized && chain != [] && Last(chain).kind == Parallelized {
      var front, job := Front(chain), Last(chain);
      FrontLast(chain);
      FlattenSnoc(front, job);
      FlattenSnoc(front, JobValue(Parallelized, job.cmds + [d.cmd]));
      AppendAssoc(Flatten(front), job.cmds, [d.cmd]);
    } else {
      FlattenSnoc(chain, JobValue(d.kind, [d.cmd]));
    }
  }

  /** The chain the declarations build, applied left to right. */
  function Build(decls: seq<Decl>): seq<JobValue> {
    if decls == [] then [] else Add(Build(Front(decls)), Last(decls))
  }

  /** Whatever the declarations, the chain they build is well formed. */
  lemma {:induction false} BuildWellFormed(decls: seq<Decl>)
    ensures WellFormed(Build(decls))
  {
    if decls != [] {
      BuildWellFormed(Front(decls));
      AddWellFormed(Build(Front(decls)), Last(decls));
    }
  }

  /** The chain lists the declared commands in declaration order. */
  lemma {:induction false} BuildCommands(decls: seq<Decl>)
    ensures Flatten(Build(decls)) == Commands(decls)
  {
    if decls != [] {
      BuildCommands(Front(decls));
      AddFlatten(Build(Front(decls)), Last(decls));
      assert Commands(decls) == Commands(Front(decls)) + [Last(decls).cmd];
    }
  }

  lemma {:induction false} BuildSnoc(decls: seq<Decl>, d: Decl)
    ensures Build(decls + [d]) == Add(Build(decls), d)
  {
    assert Front(decls + [d]) == decls;
  }

  /** `-s v` appends exactly one new sequential job `[v]`, whatever the chain ends with. */
  lemma {:induction false} SequentialAppends(decls: seq<Decl>, v: Command)
    ensures Build(decls + [Decl(Sequential, v)]) == Build(decls) + [JobValue(Sequential, [v])]
  {
    BuildSnoc(decls, Decl(Sequential, v));
  }

  /**
   * `-c v` after a parallel group adds v to that group: the number of jobs
   * and every earlier job stay as they were.
   */
  lemma {:induction false} ConcurrentJoins(decls: seq<Decl>, v: Command)
    requires Build(decls) != [] && Last(Build(decls)).kind == Parallelized
    ensures |Build(decls + [Decl(Parallelized, v)])| == |Build(decls)|
    ensures Front(Build(decls + [Decl(Parallelized, v)])) == Front(Build(decls))
    ensures Last(Build(decls + [Decl(Parallelized, v)])) == JobValue(Parallelized, Last(Build(decls)).cmds + [v])
  {
    BuildSnoc(decls, Decl(Parallelized, v));
    var before := Build(decls);
    var after := Front(before) + [JobValue(Parallelized, Last(before).cmds + [v])];
    assert Front(after) == Front(before);
  }

  /** `-c v` at the start or after a sequential job opens a new parallel group `[v]`. */
  lemma {:induction false} ConcurrentOpensGroup(decls: seq<Decl>, v: Command)
    requires Build(decls) == [] || Last(Build(decls)).kind == Sequential
    ensures Build(decls + [Decl(Parallelized, v)]) == Build(decls) + [JobValue(Parallelized, [v])]
  {
    BuildSnoc(decls, Decl(Parallelized, v));
  }

  /** The declarations one job stands for. */
  function JobDecls(job: JobValue): seq<Decl> {
    seq(|job.cmds|, k requires 0 <= k < |job.cmds| => Decl(job.kind, job.cmds[k]))
  }

  /** The declarations a chain stands for, job after job: the inverse of Build. */
  function Decls(chain: seq<JobValue>): seq<Decl> {
    if chain == [] then [] else Decls(Front(chain)) + JobDecls(Last(chain))
  }

  lemma {:induction false} JobDeclsAppend(kind: Kind, cmds: seq<Command>, c: Command)
    ensures JobDecls(JobValue(kind, cmds + [c])) == JobDecls(JobValue(kind, cmds)) + [Decl(kind, c)]
  {
  }

  lemma {:induction false} DeclsSnoc(chain: seq<JobValue>, job: JobValue)
    ensures Decls(chain + [job]) == Decls(chain) + JobDecls(job)
  {
    assert Front(chain + [job]) == chain;
  }

  /** Extending the last group by one command adds one declaration at the end. */
  lemma {:induction false} DeclsOfMerge(chain: seq<JobValue>, c: Command)
    requires chain != []
    ensures Decls(Front(chain) + [JobValue(Last(chain).kind, Last(chain).cmds + [c])])
         == Decls(chain) + [Decl(Last(chain).kind, c)]
  {
    var job := Last(chain);
    DeclsSnoc(Front(chain), JobValue(job.kind, job.cmds + [c]));
    DeclsSnoc(Front(chain), job);
    JobDeclsAppend(job.kind, job.cmds, c);
    assert chain == Front(chain) + [job];
  }

  /** A new one-command job adds its declaration at the end. */
  lemma {:induction false} DeclsOfSingle(chain: seq<JobValue>, d: Decl)
    ensures Decls(chain + [JobValue(d.kind, [d.cmd])]) == Decls(chain) + [d]
  {
    DeclsSnoc(chain, JobValue(d.kind, [d.cmd]));
    assert JobDecls(JobValue(d.kind, [d.cmd])) == [d];
  }

  /** Building loses nothing: the declarations can be read back from the chain. */
  lemma {:induction false} DeclsOfBuild(decls: seq<Decl>)
    ensures Decls(Build(decls)) == decls
  {
    if decls != [] {
      var front, d := Front(decls), Last(decls);
      var before := Build(front);
      DeclsOfBuild(front);
      assert decls == front + [d];
      if d.kind == Parallelized && before != [] && Last(before).kind == Parallelized {
        DeclsOfMerge(before, d.cmd);
      } else {
        DeclsOfSingle(before, d);
      }
    }
  }

  /** `-c` after a parallel group joins that group. */
  lemma {:induction false} AddToGroup(chain: seq<JobValue>, cmds: seq<Command>, c: Command)
    ensures Add(chain + [JobValue(Parallelized, cmds)], Decl(Parallelized, c))
         == chain + [JobValue(Parallelized, cmds + [c])]
  {
    var grouped := chain + [JobValue(Parallelized, cmds)];
    assert Front(grouped) == chain;
  }

  /**
   * A run of `-c` declarations that follows a sequential job (or starts the
   * chain) builds exactly one parallel group holding those commands.
   */
  lemma {:induction false} GroupFromDecls(decls: seq<Decl>, cmds: seq<Command>)
    requires cmds != []
    requires Build(decls) == [] || Last(Build(decls)).kind == Sequential
    ensures Build(decls + JobDecls(JobValue(Parallelized, cmds)))
         == Build(decls) + [JobValue(Parallelized, cmds)]
  {
    var d := Decl(Parallelized, Last(cmds));
    if |cmds| == 1 {
      assert JobDecls(JobValue(Parallelized, cmds)) == [d];
      BuildSnoc(decls, d);
      assert [Last(cmds)] == cmds;
    } else {
      var front := Front(cmds);
      var prefix := decls + JobDecls(JobValue(Parallelized, front));
      GroupFromDecls(decls, front);
      FrontLast(cmds);
      JobDeclsAppend(Parallelized, front, Last(cmds));
      assert decls + JobDecls(JobValue(Parallelized, cmds)) == prefix + [d];
      BuildSnoc(prefix, d);
      AddToGroup(Build(decls), front, Last(cmds));
    }
  }

  /** What well-formedness says about the last job and the jobs before it. */
  lemma {:induction false} WellFormedFront(chain: seq<JobValue>)
    requires chain != [] && WellFormed(chain)
    ensures WellFormed(Front(chain))
    ensures Last(chain).cmds != []
    ensures Last(chain).kind == Sequential ==> Last(chain).cmds == [Last(chain).cmds[0]]
    ensures Last(chain).kind == Parallelized && Front(chain) != [] ==> Last(Front(chain)).kind == Sequential
  {
    var front := Front(chain);
    forall k | 0 <= k < |front| ensures front[k] == chain[k] { }
    if front != [] {
      assert Last(front) == chain[|chain| - 2];
    }
  }

  /** Every well-formed chain is built by its own declarations. */
  lemma {:induction false} BuildOfDecls(chain: seq<JobValue>)
    requires WellFormed(chain)
    ensures Build(Decls(chain)) == chain
  {
    if chain != [] {
      var front, job := Front(chain), Last(chain);
      WellFormedFront(chain);
      BuildOfDecls(front);
      FrontLast(chain);
      if job.kind == Sequential {
        var d := Decl(Sequential, job.cmds[0]);
        assert JobDecls(job) == [d];
        BuildSnoc(Decls(front), d);
      } else {
        GroupFromDecls(Decls(front), job.cmds);
      }
    }
  }

}

=== FILE: schedule.dfy ===
/**
 * The order in which crun's `main` hands the chain to the runner. Running a
 * command and running a group under the concurrency limit are recorded as
 * steps of a trace instead of being performed.
 */
module Schedule {
  import opened Jobs
  import opened Arguments

  /** `run(cmd)` awaited on its own, or `gather_with_concurrency(limit, ...)` over a group. */
  datatype Step = RunOne(cmd: Command) | RunGroup(cmds: seq<Command>, limit: int)

  /** What a whole run of crun does: dispatch a trace, exit early, or stop on a bad `-n` value. */
  datatype Execution = Dispatched(trace: seq<Step>) | Exited(code: int) | Crashed(badLimit: string)

  /** A chain `main` can walk without failing: every sequential job has a first command. */
  predicate Runnable(chain: seq<JobValue>) {
    forall k :: 0 <= k < |chain| && chain[k].kind == Sequential ==> chain[k].cmds != []
  }

  function StepFor(job: JobValue, maxCoro: int): Step
    requires job.kind == Sequential ==> job.cmds != []
  {
    match job.kind
    case Sequential => RunOne(job.cmds[0])
    case Parallelized => RunGroup(job.cmds, maxCoro)
  }

  /** The steps `main` takes for the chain, one job after the other. */
  function Plan(chain: seq<JobValue>, maxCoro: int): (trace: seq<Step>)
    requires Runnable(chain)
    ensures |trace| == |chain|
  {
    if chain == [] then []
    else
      assert Runnable(Front(chain)) by {
        forall k | 0 <= k < |chain| - 1 ensures Front(chain)[k] == chain[k] { }
      }
      Plan(Front(chain), maxCoro) + [StepFor(Last(chain), maxCoro)]
  }

  /** The commands the steps start, in order. */
  function Started(trace: seq<Step>): seq<Command> {
    if trace == [] then []
    else
      Started(Front(trace)) + match Last(trace)
        case RunOne(cmd) => [cmd]
        case RunGroup(cmds, _) => cmds
  }

  /** The plan of one more job of the chain is the plan so far and that job's step. */
  lemma {:induction false} PlanPrefix(chain: seq<JobValue>, k: int, maxCoro: int)
    requires Runnable(chain) && 0 <= k < |chain|
    ensures Runnable(chain[..k]) && Runnable(chain[..k + 1])
    ensures Plan(chain[..k + 1], maxCoro) == Plan(chain[..k], maxCoro) + [StepFor(chain[k], maxCoro)]
  {
    var prefix := chain[..k + 1];
    forall i | 0 <= i < k + 1 ensures prefix[i] == chain[i] { }
    assert Front(prefix) == chain[..k];
  }

  lemma {:induction false} WellFormedRunnable(chain: seq<JobValue>)
    requires WellFormed(chain)
    ensures Runnable(chain)
  {
  }

  /**
   * Jobs are dispatched strictly in list order, one step per job: the k-th
   * step runs the first command of the k-th job when it is sequential, and
   * hands all its commands, with the limit, to the group runner otherwise.
   */
  lemma {:induction false} PlanInOrder(chain: seq<JobValue>, maxCoro: int, k: int)
    requires Runnable(chain)
    requires 0 <= k < |chain|
    ensures chain[k].kind == Sequential ==> Plan(chain, maxCoro)[k] == RunOne(chain[k].cmds[0])
    ensures chain[k].kind == Parallelized ==> Plan(chain, maxCoro)[k] == RunGroup(chain[k].cmds, maxCoro)
  {
    if k < |chain| - 1 {
      assert Runnable(Front(chain)) by {
        forall i | 0 <= i < |chain| - 1 ensures Front(chain)[i] == chain[i] { }
      }
      PlanInOrder(Front(chain), maxCoro, k);
      assert Plan(chain, maxCoro)[k] == Plan(Front(chain), maxCoro)[k];
    }
  }

  /** The plan of two chains one after the other is the first plan followed by the second. */
  lemma {:induction false} PlanAppend(first: seq<JobValue>, second: seq<JobValue>, maxCoro: int)
    requires Runnable(first) && Runnable(second)
    ensures Runnable(first + second)
    ensures Plan(first + second, maxCoro) == Plan(first, maxCoro) + Plan(second, maxCoro)
  {
    var both := first + second;
    assert Runnable(both) by {
      forall k | 0 <= k < |both| && both[k].kind == Sequential ensures both[k].cmds != [] {
        if k < |first| { assert both[k] == first[k]; } else { assert both[k] == second[k - |first|]; }
      }
    }
    if second != [] {
      var front := Front(second);
      assert Runnable(front) by {
        forall k | 0 <= k < |front| ensures front[k] == second[k] { }
      }
      PlanAppend(first, front, maxCoro);
      assert Front(both) == first + front;
      assert Last(both) == Last(second);
    } else {
      assert both == first;
    }
  }

  /** Every group step of the plan runs under the limit it was planned with. */
  lemma {:induction false} PlanLimit(chain: seq<JobValue>, maxCoro: int)
    requires Runnable(chain)
    ensures forall k :: 0 <= k < |chain| && Plan(chain, maxCoro)[k].RunGroup? ==> Plan(chain, maxCoro)[k].limit == maxCoro
  {
    forall k | 0 <= k < |chain| && Plan(chain, maxCoro)[k].RunGroup?
      ensures Plan(chain, maxCoro)[k].limit == maxCoro
    {
      PlanInOrder(chain, maxCoro, k);
    }
  }

  /** For a well-formed chain every command is started exactly once, in chain order. */
  lemma {:induction false} PlanStartsEveryCommand(chain: seq<JobValue>, maxCoro: int)
    requires WellFormed(chain)
    ensures Runnable(chain)
    ensures Started(Plan(chain, maxCoro)) == Flatten(chain)
  {
    if chain != [] {
      var front, job := Front(chain), Last(chain);
      assert WellFormed(front) by {
        forall k | 0 <= k < |front| ensures front[k] == chain[k] { }
      }
      PlanStartsEveryCommand(front, maxCoro);
      var trace := Plan(chain, maxCoro);
      assert Front(trace) == Plan(front, maxCoro);
      assert Last(trace) == StepFor(job, maxCoro);
      if job.kind == Sequential {
        assert job.cmds == [job.cmds[0]];
      }
    }
  }

  /**
   * What crun does with its arguments and standard input. The trace lists the
   * steps `main` hands out in order, provided every step returns; with a
   * limit below 1 the first group never finishes, so crun does not reach the
   * steps after it.
   */
  function Behaviour(args: seq<string>, stdin: string): Execution {
    match Parse(args, stdin)
    case Ready(chain, maxCoro) =>
      WellFormedRunnable(chain);
      Dispatched(Plan(chain, maxCoro))
    case Exit(code) => Exited(code)
    case BadLimit(text) => Crashed(text)
  }

  /**
   * End to end: declarations written out after `-n limit` make crun dispatch
   * the plan of the chain they build, provided every step returns. The plan
   * starts exactly the declared commands, in declaration order, and every
   * group runs under that limit. A limit below 1 is excluded: crun then
   * stalls in the first group.
   */
  lemma {:induction false} DeclaredCommandsStarted(decls: seq<Decl>, limit: int, stdin: string)
    requires limit >= 1
    ensures WellFormed(Build(decls)) && Runnable(Build(decls))
    ensures Behaviour(["-n", Decimal(limit)] + Render(decls), stdin) == Dispatched(Plan(Build(decls), limit))
    ensures Started(Behaviour(["-n", Decimal(limit)] + Render(decls), stdin).trace) == Commands(decls)
    ensures forall k :: 0 <= k < |Plan(Build(decls), limit)| && Plan(Build(decls), limit)[k].RunGroup? ==>
      Plan(Build(decls), limit)[k].limit == limit
  {
    RenderRoundTrip(decls, limit, stdin);
    BuildWellFormed(decls);
    WellFormedRunnable(Build(decls));
    BuildCommands(decls);
    PlanStartsEveryCommand(Build(decls), limit);
    PlanLimit(Build(decls), limit);
  }

  /** `crun -n k -stdin`: one group with every non-empty line of standard input, under limit k. */
  lemma {:induction false} StdinDispatch(limit: int, stdin: string)
    requires Lines(stdin) != []
    ensures Behaviour(["-n", Decimal(limit), "-stdin"], stdin) == Dispatched([RunGroup(Lines(stdin), limit)])
  {
    StdinGroup(limit, stdin);
    var chain := [JobValue(Parallelized, Lines(stdin))];
    assert Front(chain) == [];
  }
}
